=== FILE: README.md ===
# CS149 assignment 1: vector intrinsics and the threaded Mandelbrot pool, in Dafny

This project models two parts of the assignment:

- **prog2_vecintrin.** The programs are written against a masked SIMD lane model of fixed width `VECTOR_WIDTH`. Every arithmetic, compare and memory instruction takes a mask, and inactive lanes keep their contents. `hadd`, `interleave` and the unmasked broadcast take none. There are three workloads, each in a scalar reference version and a vector version:
  - `abs`;
  - `clampedExp`: a power by repeated multiplication, capped at 9.999999;
  - `arraySum`: per-chunk reduction with `hadd` and `interleave`, then a serial sum of the chunk totals.
- **prog1_mandelbrot_threads.** This part covers:
  - the task pool: a shared counter reset to 0, with `numThreads * 100` tasks, where workers fetch-and-increment until the counter passes the task count;
  - the limit of 32 threads;
  - the row range of a task;
  - the pixel index.

Modelling choices:

- **Lane model.** The lane model is in `intrinsics.dfy`. The vector width is the length of the operands, so every proof holds for all widths at once. The header that defines the intrinsics is not part of this model. Its operations are defined here with the semantics the algorithms rely on:
  - masked writes merge into the destination;
  - `hadd` puts the sum of each adjacent pair into both lanes of the pair;
  - `interleave` puts the even lanes first, then the odd lanes.

  A masked comparison leaves inactive result lanes unchanged. Every call site passes the full mask, so this choice is never visible.
- **Numbers and memory.**
  - Single-precision floats are modelled as exact reals, and `9.999999f` as the real 9.999999.
  - Memory is a `seq`, and a store returns the new sequence.
  - Integers in the row arithmetic are 32-bit unsigned where the source mixes `int` with `unsigned int`. The wrap is written out explicitly.
- **Threads.** The task counter is modelled sequentially. A schedule is a sequence of worker ids, and each entry is one atomic fetch-and-increment by that worker. Because every interleaving of atomic fetches is some schedule, the properties proved for all schedules cover all interleavings.

Files:

- `intrinsics.dfy`: masks, registers, the intrinsics, and mask lemmas.
- `arith.dfy`: small arithmetic lemmas shared by the rest.
- `chunking.dfy`: the chunk count ⌈n/w⌉ and the index facts the chunk loops need.
- `abs_vector.dfy`: `absSerial`, `absVector` as written, and `absVector` with a masked tail store.
- `clamped_exp.dfy`: `clampedExpSerial` and `clampedExpVector`.
- `array_sum.dfy`: `arraySumSerial`, the tree reduction, and `arraySumVector`.
- `row_partition.dfy`: task → rows, the 32-bit boundary, and the pixel index.
- `task_pool.dfy`: the thread limit, the task counter, and the exactly-once properties.

## Model

| member | source | states |
|---|---|---|
| Intrinsics.InitOnes | prog2_vecintrin/main.cpp:261 | `init_ones(k)` activates exactly the lanes below `k`; `init_ones(N % W)` is the tail mask |
| Intrinsics.AllOnes | prog2_vecintrin/main.cpp:266 | `init_ones()` activates every lane |
| Intrinsics.MaskNot | prog2_vecintrin/main.cpp:214 | the complement mask differs from its argument in every lane |
| Intrinsics.MaskNotInvolution | prog2_vecintrin/main.cpp:214 | complementing twice gives the original mask back |
| Intrinsics.CntBits | prog2_vecintrin/main.cpp:300 | `cntbits(m)` is never more than the width |
| Intrinsics.CntBitsCountsActive | prog2_vecintrin/main.cpp:300 | `cntbits(m)` is the number of active lanes of `m` |
| Intrinsics.CntBitsFull | prog2_vecintrin/main.cpp:300 | `cntbits(m) == W` holds exactly when every lane of `m` is active, which is the exit test of the exponent loop |
| Intrinsics.CntBitsInitOnes | prog2_vecintrin/main.cpp:261 | the tail mask `init_ones(k)` has `min(max(k, 0), W)` active lanes |
| Intrinsics.Splat | prog2_vecintrin/main.cpp:279 | the one-argument `vset` gives a register with the scalar in every lane |
| Intrinsics.VSet | prog2_vecintrin/main.cpp:268-272 | a masked broadcast writes the scalar into active lanes and keeps the inactive ones |
| Intrinsics.VLoad | prog2_vecintrin/main.cpp:288-289 | a masked load fills active lane `i` from `base + i` and keeps the inactive ones |
| Intrinsics.VStore | prog2_vecintrin/main.cpp:315-317 | a masked store writes exactly the active lanes to `base + i` and leaves every other memory cell unchanged |
| Intrinsics.VSubInt | prog2_vecintrin/main.cpp:304 | masked lane-wise integer subtraction with merge |
| Intrinsics.VSubFloat | prog2_vecintrin/main.cpp:211 | masked lane-wise float subtraction with merge |
| Intrinsics.VMultFloat | prog2_vecintrin/main.cpp:306 | masked lane-wise multiplication with merge |
| Intrinsics.VEqInt | prog2_vecintrin/main.cpp:298 | active lanes of the result say whether the operands are equal |
| Intrinsics.VLtFloat | prog2_vecintrin/main.cpp:208 | active lanes of the result say whether `a < b` |
| Intrinsics.VGtFloat | prog2_vecintrin/main.cpp:308 | active lanes of the result say whether `a > b` |
| Intrinsics.Hadd | prog2_vecintrin/main.cpp:357 | both lanes of every adjacent pair receive the pair's sum |
| Intrinsics.Interleave | prog2_vecintrin/main.cpp:359 | even lanes move to the first half and odd lanes to the second half, in order |
| Chunking.ChunkCount | prog2_vecintrin/main.cpp:259-260 | `N / W`, rounded up, is the least chunk count covering `N` elements and stays below `N + W`; it is exact when `W` divides `N` |
| Chunking.ChunkBounds | prog2_vecintrin/main.cpp:281-289 | every chunk's full-width access lies inside ⌈N/W⌉·W and starts below `N`; interior chunks lie inside `N`; the last partial chunk holds exactly `N % W` elements of workload |
| AbsVector.AbsSerial | prog2_vecintrin/main.cpp:175-184 | `output[i]` becomes `|values[i]|` for every `i < N`, and nothing else is written |
| AbsVector.AbsChunk | prog2_vecintrin/main.cpp:199-218 | after the compare / masked subtract / complement / masked reload sequence, every lane holds the absolute value of its element, whatever the uninitialised result register held |
| AbsVector.AbsVectorAsWritten | prog2_vecintrin/main.cpp:188-223 | `absVector` as written stores `|values[k]|` for every `k` below ⌈N/W⌉·W, which is past `N` unless `W` divides `N`; when `W` divides `N` nothing at or past `N` changes |
| AbsVector.AbsVectorOverrunWitness | prog2_vecintrin/main.cpp:221 | with W = 4 and N = 5, index 5 is overwritten by the vector version but not by the serial one |
| AbsVector.AbsVectorMasked | prog2_vecintrin/main.cpp:188-223 | with the tail chunk stored through `init_ones(N - i)`, the vector version agrees with `absSerial` for every `N` |
| ClampedExp.Clamp | prog2_vecintrin/main.cpp:242-244 | a value above 9.999999 becomes exactly 9.999999, and a value at or below it is unchanged |
| ClampedExp.ClampedExpSerial | prog2_vecintrin/main.cpp:229-248 | `output[i]` becomes the clamped power for every `i < N`, and nothing else is written |
| ClampedExp.IteratedClampIsClampedPow | prog2_vecintrin/main.cpp:306-310 | for `x >= -1`, clamping after every multiplication gives the same result as clamping once at the end |
| ClampedExp.IteratedClampMatchesSerial | prog2_vecintrin/main.cpp:296-311 | for `x >= -1` and exponent `y >= 0`, the per-lane value of the vector loop equals the serial reference |
| ClampedExp.ClampPolicyDiffersBelowMinusOne | prog2_vecintrin/main.cpp:306-310 | below -1 the two clamping policies differ: x = -4, y = 3 gives 9.999999 · -4 = -39.999996 per step but -64 at the end |
| ClampedExp.ChunkStateExit | prog2_vecintrin/main.cpp:298-300 | the loop's exit test (every remaining exponent is 0) holds exactly when the iteration count has reached the largest exponent of the chunk |
| ClampedExp.LaneStep | prog2_vecintrin/main.cpp:302-310 | a lane whose exponent register is nonzero takes one more multiply-and-clamp step and counts down; a lane at zero keeps its value, because the per-step clamp leaves an already-clamped value alone |
| ClampedExp.ChunkStateStep | prog2_vecintrin/main.cpp:302-310 | one iteration advances every lane's remaining exponent and clamped partial product by one step |
| ClampedExp.ExpIteration | prog2_vecintrin/main.cpp:302-310 | lanes with a non-zero exponent decrement it and multiply then clamp the accumulator; lanes at zero keep their exponent and their (already clamped) value |
| ClampedExp.ExpChunkLoop | prog2_vecintrin/main.cpp:296-311 | the `while (true)` loop runs exactly as many rounds as the chunk's largest exponent and leaves each lane's clamped power |
| ClampedExp.ExpChunk | prog2_vecintrin/main.cpp:283-311 | every lane of a chunk holds its loaded value raised to its loaded exponent with a clamp after each multiplication, whatever the value; lanes whose value is at least -1 hold the scalar reference value |
| ClampedExp.ClampedExpVector | prog2_vecintrin/main.cpp:250-319 | for every `N` and `W`, the vector version writes nothing at or past `N`, and writes at every index below `N` the power with a clamp after each multiplication; at every index whose value is at least -1 that equals the scalar reference value |
| ArraySum.SumConcat | prog2_vecintrin/main.cpp:366 | the sum of a concatenation is the sum of the parts, which is what lets per-chunk totals replace the element sum |
| ArraySum.ArraySumSerial | prog2_vecintrin/main.cpp:322-329 | the result is the left-to-right sum of the first `N` elements |
| ArraySum.PairSums | prog2_vecintrin/main.cpp:357 | one level of the reduction tree has half as many entries, entry `j` being the sum of lanes `2j` and `2j+1` |
| ArraySum.PairSumsTotal | prog2_vecintrin/main.cpp:354-361 | each level of the reduction tree has the same total as the level below, so folding never changes the sum |
| ArraySum.RoundLane | prog2_vecintrin/main.cpp:357-359 | after one hadd + interleave round, lane `i` holds element `i mod (len / 2)` of the next tree level |
| ArraySum.RoundStep | prog2_vecintrin/main.cpp:357-359 | a register holding copies of one tree level holds copies of the next level after one round |
| ArraySum.ReduceStep | prog2_vecintrin/main.cpp:354-361 | each round of the `while (local)` loop moves the register one level up the tree and halves `local` |
| ArraySum.ReduceExit | prog2_vecintrin/main.cpp:363 | when `local` reaches 0, lane 0 holds the register's total, after log2 W rounds |
| ArraySum.TreeReduce | prog2_vecintrin/main.cpp:350-363 | for a power-of-two width, the loop runs log2 W rounds and lane 0 ends holding the sum of the register |
| ArraySum.ReduceChunk | prog2_vecintrin/main.cpp:351-363 | `B[i]` is the sum of the `W` elements of chunk `i` |
| ArraySum.ChunkTotals | prog2_vecintrin/main.cpp:349-364 | `B` has one entry per chunk, entry `j` is the total of the `W` elements from `j·W`, and the entries sum to the first (chunk count)·W elements |
| ArraySum.ArraySumVector | prog2_vecintrin/main.cpp:334-367 | the vector sum equals the sum of the first ⌈N/W⌉·W elements, and equals `arraySumSerial` whenever `W` divides `N` |
| RowPartition.RowBoundaryU32 | prog1_mandelbrot_threads/mandelbrotThread.cpp:48-49 | the boundary as the source computes it, with `taskId * height` reduced modulo 2^32, never exceeds (2^32 - 1) / totalTasks, and equals the exact boundary while that product is below 2^32 |
| RowPartition.BoundaryNoWrap | prog1_mandelbrot_threads/mandelbrotThread.cpp:48-49 | while `totalTasks * height < 2^32`, the 32-bit row boundary equals the exact `taskId * height / totalTasks` |
| RowPartition.BoundaryWrapLosesRows | prog1_mandelbrot_threads/mandelbrotThread.cpp:48-49 | with 3200 tasks and height 2^21, the 32-bit end row of the last task is 754974 instead of 2^21 |
| RowPartition.PartitionEnds | prog1_mandelbrot_threads/mandelbrotThread.cpp:48-49 | task 0 starts at row 0 and the last task ends at row `height` |
| RowPartition.PartitionContiguous | prog1_mandelbrot_threads/mandelbrotThread.cpp:48-51 | each task's end row is the next task's start row, and no range runs backwards |
| RowPartition.BoundaryMonotone | prog1_mandelbrot_threads/mandelbrotThread.cpp:48-49 | row boundaries never decrease as the task id grows |
| RowPartition.PartitionDisjoint | prog1_mandelbrot_threads/mandelbrotThread.cpp:48-51 | a row rendered by task `s` is rendered by no later task |
| RowPartition.RowCovered | prog1_mandelbrot_threads/mandelbrotThread.cpp:48-51 | every row below `height` belongs to some task below `totalTasks` |
| RowPartition.RowCoveredFrom | prog1_mandelbrot_threads/mandelbrotThread.cpp:48-51 | a row below task `t`'s end row belongs to some task at or below `t` |
| RowPartition.PixelIndexU32 | prog1_mandelbrot_threads/mandelbrotThread.cpp:56 | the index `j * width + i` as the source computes it is below 2^32, and is the exact index while that is below 2^32 |
| RowPartition.PixelIndexInRange | prog1_mandelbrot_threads/mandelbrotThread.cpp:52-57 | for an image of at most 2^31 pixels, the 32-bit index `j * width + i` does not wrap and lies inside the output array |
| RowPartition.PixelIndexInjective | prog1_mandelbrot_threads/mandelbrotThread.cpp:56 | distinct pixels of a row-major image have distinct indices |
| TaskPool.Launch | prog1_mandelbrot_threads/mandelbrotThread.cpp:78-85 | more than 32 threads is refused; otherwise the counter starts at 0 with `numThreads * 100` tasks, no worker stopped and nothing handed out, which establishes the pool invariant |
| TaskPool.Fetch | prog1_mandelbrot_threads/mandelbrotThread.cpp:39-42 | one fetch-and-increment by a running worker advances the counter by one and stops the worker exactly when the fetched id is not below the task count; a fetched id below the task count is claimed by the worker that fetched it, and the fetch that stops a worker claims nothing; a stopped worker takes no turns; no other worker's state changes; the pool invariant is preserved and earlier claims are kept |
| TaskPool.Run | prog1_mandelbrot_threads/mandelbrotThread.cpp:39-42 | any schedule of fetches preserves the pool invariant: ids go out as 0, 1, 2, ... below the task count, and a worker stops only after the counter passes it |
| TaskPool.AllStoppedEveryTaskOnce | prog1_mandelbrot_threads/mandelbrotThread.cpp:39-42 | once every worker has stopped, every task id below `totalTasks` was handed out exactly once, and none at or past it |
| TaskPool.EveryRowRenderedOnce | prog1_mandelbrot_threads/mandelbrotThread.cpp:39-51 | after any schedule that stops every worker, each image row is rendered by exactly one handed-out task |
| TaskPool.RunConcat | prog1_mandelbrot_threads/mandelbrotThread.cpp:39-42 | running two schedules one after the other is running their concatenation |
| TaskPool.SoloTurns | prog1_mandelbrot_threads/mandelbrotThread.cpp:39-42 | while tasks remain, `m` turns of one running worker advance the counter by `m` and stop nobody |
| TaskPool.LastTurns | prog1_mandelbrot_threads/mandelbrotThread.cpp:41-42 | once the tasks are exhausted, one more turn stops each worker that takes it |
| TaskPool.DrainSchedule | prog1_mandelbrot_threads/mandelbrotThread.cpp:111-116 | after any accepted launch, some schedule stops every worker, so the all-stopped state of the exactly-once lemmas is reachable |

## Left out

- Reading options, the `main` driver, `usage`, `initValue` and `verifyResult` in prog2_vecintrin/main.cpp are left out. They handle input/output and random input generation. The driver fills arrays padded by `VECTOR_WIDTH` with exponents in [0, 10), and those appear here as preconditions. Its values lie in [-1, 3], and that lower bound is where the vector power is proved to agree with the serial one.
- The execution logger and its statistics are left out. The header that defines the intrinsics is not part of this model; only the semantics the code relies on is stated.
- Floating-point rounding is not modelled: floats are exact reals. The driver's tolerances (1e-5 and 0.2) therefore play no role, and `arraySumVector`'s reassociated sum equals the serial sum exactly.
- `mandel` (mandel.h), the pixel coordinates `x0 + i*dx`, `y0 + j*dy`, the image contents, and `CycleTimer` timing are left out: floating point and clocks. Rows and pixel indices are modelled; the values written are not.
- Thread creation, `join`, and memory ordering are left out. The atomic counter is modelled as one fetch-and-increment per schedule entry. This covers the behaviour of any interleaving but not the C++ memory model.
- `exit(1)` after the thread-count error is modelled as the `TooManyThreads` result. The message on stderr is left out.
- TaskPool.Launch: requires `numThreads >= 1`. The source does not check this. With `numThreads <= 0` the loop that fills the worker arguments (prog1_mandelbrot_threads/mandelbrotThread.cpp:91-106) runs zero times, yet the main thread still runs a worker on `args[0]` (line 116). That worker reads uninitialised arguments, which is undefined behaviour and has no meaning to model.
- ClampedExp.ClampedExpVector: requires a non-negative exponent on every loaded lane, including the padding lanes past `N`. In the source the exponent lanes are 32-bit `int`, so a negative lane is decremented down to INT_MIN, and the next decrement (prog2_vecintrin/main.cpp:304) overflows a signed int, which is undefined behaviour. With unbounded integers the loop would never stop. The driver only generates exponents in [0, 10) on all `N + VECTOR_WIDTH` slots.
- ClampedExp.ClampedExpVector and ClampedExp.ExpChunk: agreement with the serial reference is stated only for values at least -1, the driver's range. Below -1 the vector version clamps after every multiplication, which is what their contracts state, and ClampedExp.ClampPolicyDiffersBelowMinusOne shows that this can differ from the serial clamp at the end.
- ArraySum.ArraySumVector: requires `W` to be a power of two, which the source states as an assumption. For `N` not divisible by `W` it sums the padding lanes too, and that result is what its contract states. The source comment allows callers to assume `W` divides `N`, and the driver only calls it then.
- Intrinsics.Hadd and Intrinsics.Interleave: require an even width, which the power-of-two width of the reduction provides.
- RowPartition: the partition lemmas are stated on exact arithmetic. RowPartition.BoundaryNoWrap carries them over to the 32-bit computation while `totalTasks * height < 2^32`.
- TaskPool.EveryRowRenderedOnce: stated on the exact row boundaries. They equal the source's 32-bit boundaries only while `totalTasks * height < 2^32` (RowPartition.BoundaryNoWrap); past that the rows are not covered (RowPartition.BoundaryWrapLosesRows).

## Findings

| source | as written | input that shows it | evidently intended | confidence | as-written member | corrected member |
|---|---|---|---|---|---|---|
| prog2_vecintrin/main.cpp:197-221 | every chunk, including a partial last one, is stored with the full mask, so indices from `N` up to ⌈N/W⌉·W are overwritten with `|values[k]|` (the comment at lines 194-196 warns of this) | W = 4, N = 5, all values -1, output zero: index 5 becomes 1 in the vector version and stays 0 in the serial one | the last chunk stored through `init_ones(N - i)`, writing only indices below `N` | not executed; the overrun follows from the loop bounds | AbsVector.AbsVectorOverrunWitness | AbsVector.AbsVectorMasked |
| prog1_mandelbrot_threads/mandelbrotThread.cpp:48-49 | `taskId * height` is computed in 32-bit unsigned arithmetic (int times unsigned int), so it wraps once `totalTasks * height` reaches 2^32, and the row ranges no longer cover the image | 32 threads (3200 tasks), height 2^21: the last task's end row is 754974, not 2097152 | the exact boundary `taskId * height / totalTasks`, which partitions the rows | not executed; low, since it needs an image taller than about 1.3 million rows | RowPartition.BoundaryWrapLosesRows | RowPartition.RowCovered |

=== FILE: abs_vector.dfy ===
/**
  The absolute-value example of prog2_vecintrin: the serial loop, the
  vectorised loop as written (an if/else expressed with a mask and its
  complement, stored with the full mask), and the same loop with the tail
  chunk stored through a partial mask.
*/
module AbsVector {
  import opened Intrinsics
  import opened Arith
  import opened Chunking

  function Abs(x: real): (r: real)
    ensures r >= 0.0
    ensures r == x || r == -x
  {
    if x < 0.0 then -x else x
  }

  /** `absSerial`: `output[k] = |values[k]|` below `n`; nothing else is written. */
  method AbsSerial(values: seq<real>, output: seq<real>, n: nat) returns (out: seq<real>)
    requires n <= |values| && n <= |output|
    ensures |out| == |output|
    ensures forall k :: 0 <= k < n ==> out[k] == Abs(values[k])
    ensures forall k :: n <= k < |output| ==> out[k] == output[k]
  {
    out := output;
    var i := 0;
    while i < n
      invariant 0 <= i <= n
      invariant |out| == |output|
      invariant forall k :: 0 <= k < i ==> out[k] == Abs(values[k])
      invariant forall k :: i <= k < |output| ==> out[k] == output[k]
    {
      var x := values[i];
      if x < 0.0 {
        out := out[i := -x];
      } else {
        out := out[i := x];
      }
      i := i + 1;
    }
  }

  /**
    The body of one chunk of `absVector`: load `x`, compare with zero, compute
    `0 - x` under the negative mask and reload `x` under its complement.
    Whatever the result register held before (it starts uninitialised), every
    lane ends as the absolute value of its element.
  */
  function AbsChunk(values: seq<real>, base: nat, x: FloatVec, result: FloatVec): (r: FloatVec)
    requires |result| == |x|
    requires base + |x| <= |values|
    ensures |r| == |x|
    ensures forall l :: 0 <= l < |x| ==> r[l] == Abs(values[base + l])
  {
    var w := |x|;
    var zero := Splat(w, 0.0);
    var maskAll := AllOnes(w);
    var x' := VLoad(x, values, base, maskAll);
    var maskIsNegative := VLtFloat(InitOnes(w, 0), x', zero, maskAll);
    var r1 := VSubFloat(result, zero, x', maskIsNegative);
    var maskIsNotNegative := MaskNot(maskIsNegative);
    VLoad(r1, values, base, maskIsNotNegative)
  }

  /**
    `absVector` as written: the loop steps `i` by `w` while `i < n` and stores
    every chunk with the full mask.  It therefore writes |values[k]| to every
    index below ⌈n/w⌉·w, past `n` whenever `w` does not divide `n`; when it
    does, it agrees with `absSerial`.
  */
  method AbsVectorAsWritten(w: nat, values: seq<real>, output: seq<real>, n: nat) returns (out: seq<real>)
    requires w > 0
    requires |values| >= ChunkCount(n, w) * w && |output| >= ChunkCount(n, w) * w
    ensures |out| == |output|
    ensures forall k :: 0 <= k < ChunkCount(n, w) * w ==> out[k] == Abs(values[k])
    ensures forall k :: ChunkCount(n, w) * w <= k < |output| ==> out[k] == output[k]
    ensures n % w == 0 ==> forall k :: n <= k < |output| ==> out[k] == output[k]
  {
    var count := ChunkCount(n, w);
    var x := Splat(w, 0.0);
    var result: FloatVec :| |result| == w;
    out := output;
    var i := 0;
    ghost var c := 0;
    while i < n
      invariant c <= count && i == c * w
      invariant |out| == |output| && |result| == w
      invariant forall k :: 0 <= k < i ==> out[k] == Abs(values[k])
      invariant forall k :: i <= k < |output| ==> out[k] == output[k]
      decreases n - i
    {
      ChunkBounds(n, w, c);
      result := AbsChunk(values, i, x, result);
      out := VStore(out, i, result, AllOnes(w));
      assert (c + 1) * w == i + w;
      i := i + w;
      c := c + 1;
    }
    if c < count {
      MulMonotone(c, count - 1, w);
    }
  }

  /** A concrete run that shows the overrun: w = 4, n = 5, so index 5 is written though only 0..4 belong to the workload. */
  method AbsVectorOverrunWitness() returns (vector: seq<real>, serial: seq<real>)
    ensures |vector| == 8 && |serial| == 8
    ensures vector[5] == 1.0 && serial[5] == 0.0
  {
    var values := seq(8, _ => -1.0);
    var output := seq(8, _ => 0.0);
    assert ChunkCount(5, 4) == 2;
    vector := AbsVectorAsWritten(4, values, output, 5);
    serial := AbsSerial(values, output, 5);
  }

  /**
    `absVector` with the final partial chunk stored through
    `init_ones(n - i)`, the tail mask `clampedExpVector` uses: it writes
    exactly the indices below `n`, so it agrees with `absSerial` for every `n`.
  */
  method AbsVectorMasked(w: nat, values: seq<real>, output: seq<real>, n: nat) returns (out: seq<real>)
    requires w > 0
    requires |values| >= ChunkCount(n, w) * w && |output| >= n
    ensures |out| == |output|
    ensures forall k :: 0 <= k < n ==> out[k] == Abs(values[k])
    ensures forall k :: n <= k < |output| ==> out[k] == output[k]
  {
    var count := ChunkCount(n, w);
    var x := Splat(w, 0.0);
    var result: FloatVec :| |result| == w;
    out := output;
    var i := 0;
    ghost var c := 0;
    while i < n
      invariant c <= count && i == c * w
      invariant |out| == |output| && |result| == w
      invariant forall k :: 0 <= k < i && k < n ==> out[k] == Abs(values[k])
      invariant forall k :: 0 <= k < |output| && (k >= i || k >= n) ==> out[k] == output[k]
      decreases n - i
    {
      ChunkBounds(n, w, c);
      result := AbsChunk(values, i, x, result);
      var storeMask := InitOnes(w, n - i);
      out := VStore(out, i, result, storeMask);
      assert (c + 1) * w == i + w;
      i := i + w;
      c := c + 1;
    }
  }
}

=== FILE: arith.dfy ===
/** Facts about multiplication, division and remainder on naturals that the index arithmetic needs. */
module Arith {

  /** Multiplying by a positive width preserves order. */
  lemma MulMonotone(a: nat, b: nat, w: nat)
    requires a <= b
    ensures a * w <= b * w
  {
    assert b * w == a * w + (b - a) * w;
  }

  /** Euclidean division is unique: a decomposition `a == q * m + r` with `0 <= r < m` is the one `%` finds. */
  lemma ModUnique(a: int, m: int, q: int, r: int)
    requires m > 0
    requires a == q * m + r
    requires 0 <= r < m
    ensures a % m == r
    ensures a / m == q
  {
    var q' := a / m;
    var r' := a % m;
    assert a == q' * m + r';
    assert (q - q') * m == r' - r;
    if q > q' {
      MulMonotone(1, q - q', m);
    } else if q < q' {
      MulMonotone(1, q' - q, m);
    }
  }

  /** Doubling an index doubles its residue: the pair of lanes (2i, 2i+1) falls in pair `i % (n / 2)` of a group of `n`. */
  lemma ModDouble(i: nat, n: nat)
    requires n > 0 && n % 2 == 0
    ensures (2 * i) % n == 2 * (i % (n / 2))
    ensures (2 * i + 1) % n == 2 * (i % (n / 2)) + 1
  {
    var h := n / 2;
    assert n == 2 * h;
    assert i == (i / h) * h + i % h;
    ModUnique(2 * i, n, i / h, 2 * (i % h));
    ModUnique(2 * i + 1, n, i / h, 2 * (i % h) + 1);
  }

  /** Shifting an index by a whole number of groups does not change its residue. */
  lemma ModShift(i: nat, j: nat, h: nat, c: nat)
    requires h > 0
    requires i == h * c + j
    ensures i % h == j % h
  {
    assert j == (j / h) * h + j % h;
    ModUnique(i, h, c + j / h, j % h);
  }

  /** Halving one factor and doubling the other keeps an even product. */
  lemma HalveDouble(p: nat, c: nat)
    requires p % 2 == 0
    ensures (p / 2) * (2 * c) == p * c
  {
    assert p == 2 * (p / 2);
  }

  /** Floor division by a positive divisor preserves order. */
  lemma DivMonotone(a: nat, b: nat, d: nat)
    requires d > 0 && a <= b
    ensures a / d <= b / d
  {
    assert a == (a / d) * d + a % d;
    assert b == (b / d) * d + b % d;
    if a / d > b / d {
      MulMonotone(b / d + 1, a / d, d);
    }
  }
}

=== FILE: array_sum.dfy ===
/**
  The array sum of prog2_vecintrin: the serial left-to-right sum, and the
  vectorised version that folds each chunk with rounds of hadd + interleave
  and then sums the per-chunk results serially.
*/
module ArraySum {
  import opened Intrinsics
  import opened Arith
  import opened Chunking

  /** The left-to-right sum, in the order `arraySumSerial` accumulates it. */
  function Sum(s: seq<real>): real
  {
    if |s| == 0 then 0.0 else Sum(s[..|s| - 1]) + s[|s| - 1]
  }

  /** Summing a concatenation sums the two parts. */
  lemma {:induction false} SumConcat(a: seq<real>, b: seq<real>)
    ensures Sum(a + b) == Sum(a) + Sum(b)
  {
    if |b| > 0 {
      assert (a + b)[..|a + b| - 1] == a + b[..|b| - 1];
      SumConcat(a, b[..|b| - 1]);
    } else {
      assert a + b == a;
    }
  }

  /** `arraySumSerial`: the sum of the first `n` elements. */
  method ArraySumSerial(values: seq<real>, n: nat) returns (sum: real)
    requires n <= |values|
    ensures sum == Sum(values[..n])
  {
    sum := 0.0;
    var i := 0;
    while i < n
      invariant 0 <= i <= n
      invariant sum == Sum(values[..i])
    {
      assert values[..i + 1][..i] == values[..i];
      sum := sum + values[i];
      i := i + 1;
    }
  }

  // ---------------------------------------------------------------------------
  // Tree reduction of one register
  // ---------------------------------------------------------------------------

  /** Powers of two: 1, 2, 4, ... */
  predicate IsPow2(n: nat)
    decreases n
  {
    n == 1 || (n >= 2 && n % 2 == 0 && IsPow2(n / 2))
  }

  function Pow2(k: nat): (p: nat)
    ensures p >= 1
  {
    if k == 0 then 1 else 2 * Pow2(k - 1)
  }

  /** One level of the reduction tree: the sums of adjacent pairs, which halves the length. */
  function PairSums(v: seq<real>): (p: seq<real>)
    requires |v| % 2 == 0
    ensures |p| == |v| / 2
    ensures forall j :: 0 <= j < |p| ==> p[j] == v[2 * j] + v[2 * j + 1]
  {
    seq(|v| / 2, j requires 0 <= j < |v| / 2 => v[2 * j] + v[2 * j + 1])
  }

  /** Dropping the last pair of a level drops the last element of the next level. */
  lemma PairSumsPrefix(v: seq<real>)
    requires |v| % 2 == 0 && |v| > 0
    ensures PairSums(v)[..|v| / 2 - 1] == PairSums(v[..|v| - 2])
    ensures PairSums(v)[|v| / 2 - 1] == v[|v| - 2] + v[|v| - 1]
  {
    var a := PairSums(v)[..|v| / 2 - 1];
    var b := PairSums(v[..|v| - 2]);
    assert |a| == |b|;
    forall j | 0 <= j < |a|
      ensures a[j] == b[j]
    {
      assert a[j] == v[2 * j] + v[2 * j + 1];
    }
  }

  /** A level of the reduction tree keeps the total of the level below. */
  lemma {:induction false} PairSumsTotal(v: seq<real>)
    requires |v| % 2 == 0
    ensures Sum(PairSums(v)) == Sum(v)
  {
    if |v| > 0 {
      var v' := v[..|v| - 2];
      PairSumsTotal(v');
      PairSumsPrefix(v);
      assert v[..|v| - 1][..|v| - 2] == v';
    }
  }

  /**
    After some rounds the register holds copies of the current level `p` of
    the tree: lane `i` holds `p[i % |p|]`.
  */
  ghost predicate Replicates(r: FloatVec, p: seq<real>)
  {
    |p| > 0 && forall i :: 0 <= i < |r| ==> r[i] == p[i % |p|]
  }

  /** Lanes 2j and 2j+1 of a replicating register hold the pair of level elements that sums to entry `j % (|p| / 2)` of the next level. */
  lemma ReplicatedPair(r: FloatVec, p: seq<real>, j: nat)
    requires |p| >= 2 && |p| % 2 == 0
    requires Replicates(r, p)
    requires 2 * j + 1 < |r|
    ensures r[2 * j] == p[2 * (j % (|p| / 2))]
    ensures r[2 * j + 1] == p[2 * (j % (|p| / 2)) + 1]
  {
    ModDouble(j, |p|);
  }

  /** After hadd, both lanes of pair `j` hold element `j % (|p| / 2)` of the next level when the pair's lanes hold that element's two summands. */
  lemma HaddPair(r: FloatVec, p: seq<real>, j: nat)
    requires |p| >= 2 && |p| % 2 == 0 && |r| % 2 == 0
    requires j < |r| / 2
    requires r[2 * j] == p[2 * (j % (|p| / 2))] && r[2 * j + 1] == p[2 * (j % (|p| / 2)) + 1]
    ensures Hadd(r)[2 * j] == Hadd(r)[2 * j + 1] == PairSums(p)[j % (|p| / 2)]
  {
  }

  /** Lane `i` after one hadd + interleave round holds element `i % (|p| / 2)` of the next level. */
  lemma RoundLane(r: FloatVec, p: seq<real>, c: nat, i: nat)
    requires |p| >= 2 && |p| % 2 == 0
    requires |r| == |p| * c
    requires Replicates(r, p)
    requires i < |r|
    ensures |r| % 2 == 0
    ensures Interleave(Hadd(r))[i] == PairSums(p)[i % (|p| / 2)]
  {
    var h := |p| / 2;
    var half := h * c;
    assert |r| == 2 * half by {
      HalveDouble(|p|, c);
    }
    var t := Hadd(r);
    if i < half {
      ReplicatedPair(r, p, i);
      HaddPair(r, p, i);
      InterleaveLow(t, i);
    } else {
      var j := i - half;
      ReplicatedPair(r, p, j);
      HaddPair(r, p, j);
      InterleaveHigh(t, i);
      ModShift(i, j, h, c);
    }
  }

  /**
    One hadd + interleave round on a register that replicates `p` replicates
    the next level of the tree.
  */
  lemma RoundStep(r: FloatVec, p: seq<real>, c: nat)
    requires |p| >= 2 && |p| % 2 == 0
    requires |r| == |p| * c
    requires Replicates(r, p)
    ensures |r| % 2 == 0
    ensures Replicates(Interleave(Hadd(r)), PairSums(p))
  {
    assert |r| == 2 * ((|p| / 2) * c);
    forall i | 0 <= i < |r|
      ensures Interleave(Hadd(r))[i] == PairSums(p)[i % (|p| / 2)]
    {
      RoundLane(r, p, c, i);
    }
  }

  /**
    The state of the hadd/interleave loop after `rounds` rounds on input `v`:
    the register replicates the current tree level `p`, which keeps the total
    of `v` and has `w / 2^rounds` elements; `local` is half of that.
  */
  ghost predicate ReduceState(v: FloatVec, r: FloatVec, p: seq<real>, rounds: nat, local: nat)
  {
    && |r| == |v|
    && IsPow2(|p|) && |p| * Pow2(rounds) == |v| && local == |p| / 2
    && Sum(p) == Sum(v)
    && Replicates(r, p)
  }

  /** The loop starts in its state with the input itself as the tree's bottom level. */
  lemma ReduceStart(v: FloatVec)
    requires IsPow2(|v|)
    ensures ReduceState(v, v, v, 0, |v| / 2)
  {
    forall i | 0 <= i < |v|
      ensures v[i] == v[i % |v|]
    {
      ModUnique(i, |v|, 0, i);
    }
  }

  /** One round moves the loop one level up the tree. */
  lemma ReduceStep(v: FloatVec, r: FloatVec, p: seq<real>, rounds: nat, local: nat)
    requires ReduceState(v, r, p, rounds, local)
    requires local != 0
    ensures |r| % 2 == 0 && |p| % 2 == 0
    ensures ReduceState(v, Interleave(Hadd(r)), PairSums(p), rounds + 1, local / 2)
  {
    RoundStep(r, p, Pow2(rounds));
    HalveDouble(|p|, Pow2(rounds));
    PairSumsTotal(p);
  }

  /** When `local` reaches 0 the tree has one level left: lane 0 holds the total. */
  lemma ReduceExit(v: FloatVec, r: FloatVec, p: seq<real>, rounds: nat)
    requires ReduceState(v, r, p, rounds, 0)
    ensures Pow2(rounds) == |v|
    ensures |r| > 0 && r[0] == Sum(v)
  {
    assert |p| == 1;
    assert p[..0] == [];
    assert Sum(p) == p[0];
    ModUnique(0, 1, 0, 0);
    assert r[0] == p[0];
  }

  /**
    The hadd/interleave loop on one register of width `w`, a power of two:
    it runs log2 w rounds and leaves the register's total in lane 0.
  */
  method TreeReduce(v: FloatVec) returns (lane0: real, rounds: nat)
    requires IsPow2(|v|)
    ensures Pow2(rounds) == |v|
    ensures lane0 == Sum(v)
  {
    var local: nat := |v| / 2;
    var r := v;
    ghost var p := v;
    rounds := 0;
    ReduceStart(v);
    while local != 0
      invariant ReduceState(v, r, p, rounds, local)
      decreases local
    {
      ReduceStep(v, r, p, rounds, local);
      var tmp := Hadd(r);
      r := Interleave(tmp);
      p := PairSums(p);
      local := local / 2;
      rounds := rounds + 1;
    }
    ReduceExit(v, r, p, rounds);
    lane0 := r[0];
  }

  /** Appending the sum of the next chunk keeps the chunk sums equal to the prefix sum. */
  lemma ChunkSumStep(values: seq<real>, sums: seq<real>, base: nat, w: nat)
    requires base + w <= |values|
    requires Sum(sums) == Sum(values[..base])
    ensures Sum(sums + [Sum(values[base..base + w])]) == Sum(values[..base + w])
  {
    assert (sums + [Sum(values[base..base + w])])[..|sums|] == sums;
    assert values[..base + w] == values[..base] + values[base..base + w];
    SumConcat(values[..base], values[base..base + w]);
  }

  /** One chunk of `arraySumVector`: load `w` lanes at `base` and fold them; lane 0 is the chunk's total. */
  method ReduceChunk(w: nat, values: seq<real>, base: nat) returns (lane0: real)
    requires IsPow2(w)
    requires base + w <= |values|
    ensures lane0 == Sum(values[base..base + w])
  {
    var maskAll := AllOnes(w);
    var localVec := VSet(Splat(w, 0.0), 0.0, maskAll);
    localVec := VLoad(localVec, values, base, maskAll);
    assert localVec == values[base..base + w];
    var rounds;
    lane0, rounds := TreeReduce(localVec);
  }

  /** Entry `j` of `b` is the total of chunk `j`, the `w` elements from `j * w`. */
  ghost predicate IsChunkTotals(values: seq<real>, w: nat, b: seq<real>)
  {
    forall j :: 0 <= j < |b| ==> j * w + w <= |values| && b[j] == Sum(values[j * w .. j * w + w])
  }

  /** The state of the chunk loop after `i` chunks: one total per chunk so far, summing to the elements consumed. */
  ghost predicate TotalsState(values: seq<real>, w: nat, count: nat, b: seq<real>, i: nat, done: nat)
  {
    && i <= count && done == i * w && count * w <= |values|
    && |b| == i
    && IsChunkTotals(values, w, b)
    && Sum(b) == Sum(values[..done])
  }

  /** Chunk `i` lies inside the consumed prefix's successor, and appending its total advances the state. */
  lemma TotalsStep(values: seq<real>, w: nat, count: nat, b: seq<real>, i: nat, done: nat, total: real)
    requires TotalsState(values, w, count, b, i, done)
    requires i < count
    requires done + w <= |values| && total == Sum(values[done..done + w])
    ensures TotalsState(values, w, count, b + [total], i + 1, done + w)
  {
    assert (i + 1) * w == done + w;
    ChunkSumStep(values, b, done, w);
    ChunkTotalsAppend(values, w, b, total);
  }

  /** Appending the total of the chunk after the last one keeps every entry the total of its chunk. */
  lemma ChunkTotalsAppend(values: seq<real>, w: nat, b: seq<real>, total: real)
    requires IsChunkTotals(values, w, b)
    requires |b| * w + w <= |values| && total == Sum(values[|b| * w .. |b| * w + w])
    ensures IsChunkTotals(values, w, b + [total])
  {
    var b' := b + [total];
    forall j | 0 <= j < |b'|
      ensures j * w + w <= |values| && b'[j] == Sum(values[j * w .. j * w + w])
    {
      if j < |b| {
        assert b'[j] == b[j];
      }
    }
  }

  /** Before the first chunk nothing has been consumed. */
  lemma TotalsStart(values: seq<real>, w: nat, count: nat)
    requires count * w <= |values|
    ensures TotalsState(values, w, count, [], 0, 0)
  {
    assert values[..0] == [];
  }

  /** When the loop leaves, every chunk has its total and the totals cover the first `count * w` elements. */
  lemma TotalsExit(values: seq<real>, w: nat, count: nat, b: seq<real>, i: nat, done: nat)
    requires TotalsState(values, w, count, b, i, done)
    requires i >= count
    ensures |b| == count
    ensures IsChunkTotals(values, w, b)
    ensures Sum(b) == Sum(values[..count * w])
  {
  }

  /** The next chunk fits inside the array. */
  lemma TotalsRoom(values: seq<real>, w: nat, count: nat, b: seq<real>, i: nat, done: nat)
    requires TotalsState(values, w, count, b, i, done)
    requires i < count
    ensures done + w <= |values|
  {
    MulMonotone(i + 1, count, w);
    assert (i + 1) * w == done + w;
  }

  /**
    The chunk loop of `arraySumVector`: one folded total per chunk, in chunk
    order (the array `B`); together they sum to the first `count * w` elements.
  */
  method ChunkTotals(w: nat, values: seq<real>, count: nat) returns (b: seq<real>)
    requires IsPow2(w)
    requires count * w <= |values|
    ensures |b| == count
    ensures IsChunkTotals(values, w, b)
    ensures Sum(b) == Sum(values[..count * w])
  {
    b := [];
    var i: nat := 0;
    var done: nat := 0;
    TotalsStart(values, w, count);
    while i < count
      invariant TotalsState(values, w, count, b, i, done)
    {
      TotalsRoom(values, w, count, b, i, done);
      var lane0 := ReduceChunk(w, values, done);
      TotalsStep(values, w, count, b, i, done, lane0);
      b := b + [lane0];
      i := i + 1;
      done := done + w;
    }
    TotalsExit(values, w, count, b, i, done);
  }

  /**
    `arraySumVector`: ⌈n/w⌉ chunks, each folded to one value, then summed
    serially.  It totals the first ⌈n/w⌉·w elements, which is exactly the
    serial sum when `w` divides `n` (the case the driver runs it in).
  */
  method ArraySumVector(w: nat, values: seq<real>, n: nat) returns (sum: real)
    requires IsPow2(w)
    requires |values| >= ChunkCount(n, w) * w
    ensures sum == Sum(values[..ChunkCount(n, w) * w])
    ensures n % w == 0 ==> sum == Sum(values[..n])
  {
    assert w > 0;
    var newSize := n / w;
    if n % w != 0 {
      newSize := newSize + 1;
    }
    assert newSize == ChunkCount(n, w);
    var b := ChunkTotals(w, values, newSize);
    sum := ArraySumSerial(b, newSize);
    assert b[..newSize] == b;
  }
}

=== FILE: chunking.dfy ===
/**
  How the vector algorithms cut an array of `n` elements into chunks of `w`
  lanes, and the index arithmetic that keeps their loads and stores in bounds.
*/
module Chunking {
  import opened Arith

  /**
    The number of chunks: `n / w`, plus one when a partial tail chunk is left
    over.  It is the least `c` with `c * w >= n`, and its chunks never reach
    as far as `n + w`.
  */
  function ChunkCount(n: nat, w: nat): (c: nat)
    requires w > 0
    ensures c * w >= n
    ensures c == 0 || (c - 1) * w < n
    ensures c * w < n + w
    ensures n % w == 0 ==> c * w == n
  {
    var c := n / w + (if n % w != 0 then 1 else 0);
    assert n == (n / w) * w + n % w;
    assert c * w == (n / w) * w + (if n % w != 0 then w else 0);
    c
  }

  /**
    The facts the chunk loops need about chunk `i`: its full-width access ends
    inside the rounded-up length; an interior chunk (or any chunk when `w`
    divides `n`) ends inside the workload; the final partial chunk has exactly
    `n % w` lanes of workload.
  */
  lemma ChunkBounds(n: nat, w: nat, i: nat)
    requires w > 0
    requires i < ChunkCount(n, w)
    ensures i * w + w <= ChunkCount(n, w) * w
    ensures i * w < n
    ensures (i + 1 < ChunkCount(n, w) || n % w == 0) ==> i * w + w <= n
    ensures (i + 1 == ChunkCount(n, w) && n % w != 0) ==> i * w + n % w == n
  {
    var c := ChunkCount(n, w);
    MulMonotone(i + 1, c, w);
    MulMonotone(i, c - 1, w);
    if i + 1 < c {
      MulMonotone(i + 1, c - 1, w);
    }
    if i + 1 == c && n % w != 0 {
      assert c == n / w + 1;
      assert n == (n / w) * w + n % w;
    }
  }
}

=== FILE: clamped_exp.dfy ===
/**
  The clamped power of prog2_vecintrin: for each element, `values[i]` raised to
  `exponents[i]` by repeated multiplication, capped at a ceiling.  The scalar
  reference and the vectorised version built on the lane model.
*/
module ClampedExp {
  import opened Intrinsics
  import opened Chunking

  /** The cap on every result (the single-precision literal 9.999999f, taken as an exact real). */
  const Ceiling: real := 9.999999

  /** `x` multiplied by itself `n` times, starting from 1. */
  function Pow(x: real, n: nat): real
  {
    if n == 0 then 1.0 else Pow(x, n - 1) * x
  }

  /** Replace anything above the ceiling by the ceiling. */
  function Clamp(v: real): (r: real)
    ensures r <= Ceiling
    ensures v <= Ceiling ==> r == v
    ensures v > Ceiling ==> r == Ceiling
  {
    if v > Ceiling then Ceiling else v
  }

  /**
    The scalar reference for one element: exponent 0 gives 1; otherwise `x`
    multiplied `y - 1` more times (none at all for a negative `y`), clamped.
  */
  function ClampedExpValue(x: real, y: int): real
  {
    if y == 0 then 1.0 else Clamp(Pow(x, if y < 1 then 1 else y))
  }

  /**
    `clampedExpSerial`: writes the reference value into every index below `n`
    and nothing else.
  */
  method ClampedExpSerial(values: seq<real>, exponents: seq<int>, output: seq<real>, n: nat)
    returns (out: seq<real>)
    requires n <= |values| && n <= |exponents| && n <= |output|
    ensures |out| == |output|
    ensures forall k :: 0 <= k < n ==> out[k] == ClampedExpValue(values[k], exponents[k])
    ensures forall k :: n <= k < |output| ==> out[k] == output[k]
  {
    out := output;
    var i := 0;
    while i < n
      invariant 0 <= i <= n
      invariant |out| == |output|
      invariant forall k :: 0 <= k < i ==> out[k] == ClampedExpValue(values[k], exponents[k])
      invariant forall k :: i <= k < |output| ==> out[k] == output[k]
    {
      var x := values[i];
      var y := exponents[i];
      if y == 0 {
        out := out[i := 1.0];
      } else {
        var result := x;
        var count := y - 1;
        while count > 0
          invariant count >= 0 || y < 1
          invariant result == Pow(x, if y < 1 then 1 else y - count)
          invariant count <= y - 1
        {
          result := result * x;
          count := count - 1;
        }
        if result > 9.999999 {
          result := 9.999999;
        }
        out := out[i := result];
      }
      i := i + 1;
    }
  }

  // ---------------------------------------------------------------------------
  // Clamp inside the loop versus clamp at the end
  // ---------------------------------------------------------------------------

  /**
    One lane of the vector accumulator after `k` loop iterations: multiply by
    `x`, then clamp, `k` times, starting from 1.
  */
  function IteratedClamp(x: real, k: nat): (r: real)
    ensures r <= Ceiling
  {
    if k == 0 then 1.0 else Clamp(IteratedClamp(x, k - 1) * x)
  }

  /** Powers of a number in [-1, 1] stay in [-1, 1]. */
  lemma {:induction false} PowUnitBounded(x: real, n: nat)
    requires -1.0 <= x <= 1.0
    ensures -1.0 <= Pow(x, n) <= 1.0
  {
    if n > 0 {
      PowUnitBounded(x, n - 1);
      var p := Pow(x, n - 1);
      if p >= 0.0 {
        if x >= 0.0 {
          assert p * x <= p * 1.0;
        } else {
          assert p * x >= p * -1.0;
        }
      } else {
        if x >= 0.0 {
          assert p * x >= -1.0 * x;
        } else {
          assert p * x <= -1.0 * x;
        }
      }
    }
  }

  /** Above the ceiling, multiplying by a factor above 1 stays above it, so the clamp gives the ceiling. */
  lemma ClampAboveCeiling(p: real, x: real)
    requires p >= Ceiling && x > 1.0
    ensures Clamp(p * x) == Ceiling
  {
    assert p * x - p == p * (x - 1.0);
    assert p * (x - 1.0) > 0.0;
  }

  lemma PowStep(x: real, k: nat)
    requires k > 0
    ensures Pow(x, k) == Pow(x, k - 1) * x
  {
  }

  /** One more step of the per-step policy multiplies the previous value `a` by `x` and clamps. */
  lemma IteratedClampStep(x: real, k: nat, a: real)
    requires k > 0 && a == IteratedClamp(x, k - 1)
    ensures IteratedClamp(x, k) == Clamp(a * x)
  {
  }

  /** A power above the ceiling has a base above 1 when the base is at least -1. */
  lemma BaseAboveOne(x: real, n: nat)
    requires x >= -1.0
    ensures Pow(x, n) > Ceiling ==> x > 1.0
  {
    if x <= 1.0 {
      PowUnitBounded(x, n);
    }
  }

  /** While the power is still at most the ceiling, both policies take the same step. */
  lemma StepBelowCeiling(x: real, k: nat)
    requires k > 1
    requires IteratedClamp(x, k - 1) == Pow(x, k - 1)
    ensures IteratedClamp(x, k) == Clamp(Pow(x, k))
  {
    PowStep(x, k);
    IteratedClampStep(x, k, IteratedClamp(x, k - 1));
  }

  /** Once the power is above the ceiling and the base above 1, both policies give the ceiling. */
  lemma StepAboveCeiling(x: real, k: nat)
    requires k > 1 && x > 1.0
    requires IteratedClamp(x, k - 1) == Ceiling && Pow(x, k - 1) > Ceiling
    ensures IteratedClamp(x, k) == Ceiling == Clamp(Pow(x, k))
  {
    PowStep(x, k);
    IteratedClampStep(x, k, IteratedClamp(x, k - 1));
    ClampAboveCeiling(Ceiling, x);
    ClampAboveCeiling(Pow(x, k - 1), x);
  }

  /**
    For `x >= -1` clamping after every multiplication gives the clamped power:
    either the powers stay within [-1, 1] and never reach the ceiling, or they
    never decrease, so once clamped they stay above it.
  */
  lemma {:induction false} IteratedClampIsClampedPow(x: real, k: nat)
    requires x >= -1.0
    requires k > 0
    ensures IteratedClamp(x, k) == Clamp(Pow(x, k))
  {
    if k == 1 {
      PowStep(x, 1);
      IteratedClampStep(x, 1, 1.0);
    } else {
      IteratedClampIsClampedPow(x, k - 1);
      if Pow(x, k - 1) > Ceiling {
        BaseAboveOne(x, k - 1);
        StepAboveCeiling(x, k);
      } else {
        StepBelowCeiling(x, k);
      }
    }
  }

  /** The vector lane result agrees with the scalar reference on the driver's input range. */
  lemma IteratedClampMatchesSerial(x: real, y: nat)
    requires x >= -1.0
    ensures IteratedClamp(x, y) == ClampedExpValue(x, y)
  {
    if y > 0 {
      IteratedClampIsClampedPow(x, y);
    }
  }

  /** Below -1 the two clamping policies part ways: (-4)^3 = -64, but clamping at 16 gives 9.999999 * -4. */
  lemma ClampPolicyDiffersBelowMinusOne()
    ensures IteratedClamp(-4.0, 3) == Ceiling * -4.0 && ClampedExpValue(-4.0, 3) == -64.0
    ensures IteratedClamp(-4.0, 3) != ClampedExpValue(-4.0, 3)
  {
    assert Pow(-4.0, 3) == -64.0;
    assert IteratedClamp(-4.0, 1) == -4.0;
    assert IteratedClamp(-4.0, 2) == Ceiling;
    assert IteratedClamp(-4.0, 3) == Ceiling * -4.0;
  }

  // ---------------------------------------------------------------------------
  // The vectorised version
  // ---------------------------------------------------------------------------

  /** The largest exponent in a chunk (0 for an empty chunk). */
  function MaxExponent(e: seq<int>): (m: int)
    ensures forall i :: 0 <= i < |e| ==> e[i] <= m
    ensures (|e| == 0 && m == 0) || exists i :: 0 <= i < |e| && e[i] == m
  {
    if |e| == 0 then 0
    else if |e| == 1 then e[0]
    else
      var m' := MaxExponent(e[..|e| - 1]);
      if e[|e| - 1] > m' then e[|e| - 1] else m'
  }

  /** Iterations a lane with exponent `e` has taken part in after `t` loop iterations. */
  function LaneSteps(e: int, t: nat): nat
    requires e >= 0
  {
    if e > t then t else e
  }

  /**
    The state of one chunk after `t` iterations of the inner loop: each lane's
    exponent register counts down to 0 and its accumulator has been multiplied
    and clamped once per iteration it was active in.
  */
  ghost predicate ChunkState(x: FloatVec, e: IntVec, t: nat, y: IntVec, acc: FloatVec)
  {
    && |e| == |x| && |y| == |x| && |acc| == |x|
    && (forall i :: 0 <= i < |x| ==> e[i] >= 0)
    && (forall i :: 0 <= i < |x| ==> y[i] == e[i] - LaneSteps(e[i], t))
    && (forall i :: 0 <= i < |x| ==> acc[i] == IteratedClamp(x[i], LaneSteps(e[i], t)))
  }

  /** One lane of one iteration: an active lane takes one more multiply-and-clamp step; a finished lane keeps its value. */
  lemma LaneStep(x: real, e: int, t: nat, y: int, acc: real, y': int, acc': real)
    requires e >= 0
    requires y == e - LaneSteps(e, t) && acc == IteratedClamp(x, LaneSteps(e, t))
    requires y != 0 ==> y' == y - 1 && acc' == Clamp(acc * x)
    requires y == 0 ==> y' == y && acc' == Clamp(acc)
    ensures y' == e - LaneSteps(e, t + 1)
    ensures acc' == IteratedClamp(x, LaneSteps(e, t + 1))
  {
    if y != 0 {
      IteratedClampStep(x, LaneSteps(e, t + 1), acc);
    }
  }

  /**
    One iteration that decrements and multiplies exactly the lanes whose
    exponent is nonzero, and clamps, moves the chunk state one step on.
  */
  lemma ChunkStateStep(x: FloatVec, e: IntVec, t: nat, y: IntVec, acc: FloatVec, y': IntVec, acc': FloatVec)
    requires ChunkState(x, e, t, y, acc)
    requires |y'| == |x| && |acc'| == |x|
    requires forall i :: 0 <= i < |x| && y[i] != 0 ==> y'[i] == y[i] - 1 && acc'[i] == Clamp(acc[i] * x[i])
    requires forall i :: 0 <= i < |x| && y[i] == 0 ==> y'[i] == y[i] && acc'[i] == Clamp(acc[i])
    ensures ChunkState(x, e, t + 1, y', acc')
  {
    forall i | 0 <= i < |x|
      ensures y'[i] == e[i] - LaneSteps(e[i], t + 1)
      ensures acc'[i] == IteratedClamp(x[i], LaneSteps(e[i], t + 1))
    {
      LaneStep(x[i], e[i], t, y[i], acc[i], y'[i], acc'[i]);
    }
  }

  /** Every lane's exponent register has reached 0 exactly when the largest exponent has been used up. */
  lemma ChunkStateExit(x: FloatVec, e: IntVec, t: nat, y: IntVec, acc: FloatVec)
    requires ChunkState(x, e, t, y, acc)
    ensures (forall i :: 0 <= i < |y| ==> y[i] == 0) <==> MaxExponent(e) <= t
  {
    if forall i :: 0 <= i < |y| ==> y[i] == 0 {
      if |e| > 0 {
        var j :| 0 <= j < |e| && e[j] == MaxExponent(e);
        assert y[j] == 0;
      }
    }
  }

  /**
    The body of the inner loop after its exit test: under `not(is_zero)`
    decrement the exponent and multiply the accumulator, then clamp every lane
    that went above the ceiling.
  */
  method ExpIteration(x: FloatVec, y: IntVec, acc: FloatVec, maskIsZero: Mask, ones: IntVec, nines: FloatVec)
    returns (y': IntVec, acc': FloatVec)
    requires |y| == |x| && |acc| == |x| && |maskIsZero| == |x| && |ones| == |x| && |nines| == |x|
    requires forall i :: 0 <= i < |x| ==> (maskIsZero[i] <==> y[i] == 0)
    requires forall i :: 0 <= i < |x| ==> ones[i] == 1 && nines[i] == Ceiling
    ensures |y'| == |x| && |acc'| == |x|
    ensures forall i :: 0 <= i < |x| && y[i] != 0 ==> y'[i] == y[i] - 1 && acc'[i] == Clamp(acc[i] * x[i])
    ensures forall i :: 0 <= i < |x| && y[i] == 0 ==> y'[i] == y[i] && acc'[i] == Clamp(acc[i])
  {
    var maskAll := AllOnes(|x|);
    var maskIsNotZero := MaskNot(maskIsZero);
    y' := VSubInt(y, y, ones, maskIsNotZero);
    var product := VMultFloat(acc, acc, x, maskIsNotZero);
    var maskAboveCeiling := VGtFloat(AllOnes(|x|), product, nines, maskAll);
    acc' := VSet(product, Ceiling, maskAboveCeiling);
  }

  /**
    The data-dependent loop of `clampedExpVector` for one chunk.  With every
    exponent non-negative it stops after exactly `max(exponents)` iterations;
    each iteration decrements and multiplies only the lanes whose exponent is
    still nonzero, and lane `i` ends holding `IteratedClamp(x[i], e[i])`.
  */
  method ExpChunkLoop(x: FloatVec, e: IntVec) returns (acc: FloatVec, iterations: nat)
    requires |x| == |e| > 0
    requires forall i :: 0 <= i < |e| ==> e[i] >= 0
    ensures |acc| == |x|
    ensures iterations == MaxExponent(e)
    ensures forall i :: 0 <= i < |x| ==> acc[i] == IteratedClamp(x[i], e[i])
  {
    var w := |x|;
    var maskAll := AllOnes(w);
    var zeros := Splat(w, 0);
    var ones := Splat(w, 1);
    var nines := Splat(w, Ceiling);
    var y := e;
    acc := Splat(w, 1.0);
    var maskIsZero := AllOnes(w);
    iterations := 0;
    while true
      invariant |maskIsZero| == w
      invariant iterations <= MaxExponent(e)
      invariant ChunkState(x, e, iterations, y, acc)
      decreases MaxExponent(e) - iterations
    {
      maskIsZero := VEqInt(maskIsZero, y, zeros, maskAll);
      CntBitsFull(maskIsZero);
      ChunkStateExit(x, e, iterations, y, acc);
      if CntBits(maskIsZero) == w {
        break;
      }
      var y', acc' := ExpIteration(x, y, acc, maskIsZero, ones, nines);
      ChunkStateStep(x, e, iterations, y, acc, y', acc');
      y, acc := y', acc';
      iterations := iterations + 1;
    }
  }

  /**
    One chunk of `clampedExpVector`: load `w` values and exponents starting at
    `base` under the full mask, run the inner loop, and hand back the lanes
    to store.  Each lane holds its value raised to its exponent with a clamp
    after every multiplication; for values of at least -1 that is the scalar
    reference value.
  */
  method ExpChunk(w: nat, values: seq<real>, exponents: seq<int>, base: nat)
    returns (tempOutput: FloatVec)
    requires w > 0
    requires base + w <= |values| && base + w <= |exponents|
    requires forall k :: base <= k < base + w ==> exponents[k] >= 0
    ensures |tempOutput| == w
    ensures forall k :: base <= k < base + w ==>
      tempOutput[k - base] == IteratedClamp(values[k], exponents[k])
    ensures forall k :: base <= k < base + w && values[k] >= -1.0 ==>
      tempOutput[k - base] == ClampedExpValue(values[k], exponents[k])
  {
    var maskAll := AllOnes(w);
    var x := VSet(Splat(w, 0.0), 0.0, maskAll);
    var y := VSet(Splat(w, 0), 0, maskAll);
    x := VLoad(x, values, base, maskAll);
    y := VLoad(y, exponents, base, maskAll);
    var iterations;
    tempOutput, iterations := ExpChunkLoop(x, y);
    forall k | base <= k < base + w && values[k] >= -1.0
      ensures tempOutput[k - base] == ClampedExpValue(values[k], exponents[k])
    {
      IteratedClampMatchesSerial(x[k - base], y[k - base]);
    }
  }

  /**
    `clampedExpVector`: chunks of `w` lanes, ⌈n/w⌉ of them; every load stays
    below ⌈n/w⌉·w < n + w, so a buffer padded by `w` suffices; the final
    partial chunk is stored through `init_ones(n % w)`, so no index at or past
    `n` is written; and every index below `n` receives its value raised to its
    exponent with a clamp after every multiplication, which is the scalar
    reference value whenever the value is at least -1 (the driver's range).
    Exponents must be non-negative on every loaded lane, or the inner loop
    would not stop.
  */
  method ClampedExpVector(w: nat, values: seq<real>, exponents: seq<int>, output: seq<real>, n: nat)
    returns (out: seq<real>, chunks: nat)
    requires w > 0
    requires |values| >= ChunkCount(n, w) * w && |exponents| >= ChunkCount(n, w) * w
    requires |output| >= n
    requires forall k :: 0 <= k < ChunkCount(n, w) * w ==> exponents[k] >= 0
    ensures chunks * w >= n && chunks * w < n + w
    ensures |out| == |output|
    ensures forall k :: 0 <= k < n ==> out[k] == IteratedClamp(values[k], exponents[k])
    ensures forall k :: 0 <= k < n && values[k] >= -1.0 ==> out[k] == ClampedExpValue(values[k], exponents[k])
    ensures forall k :: n <= k < |output| ==> out[k] == output[k]
  {
    var count := n / w;
    if n % w != 0 {
      count := count + 1;
    }
    assert count == ChunkCount(n, w);
    var lastMask := InitOnes(w, n % w);
    var maskAll := AllOnes(w);
    out := output;
    var i := 0;
    var done := 0;
    while i < count
      invariant 0 <= i <= count && done == w * i
      invariant |out| == |output|
      invariant forall k :: 0 <= k < n && k < done ==> out[k] == IteratedClamp(values[k], exponents[k])
      invariant forall k :: 0 <= k < |output| && (k >= done || k >= n) ==> out[k] == output[k]
    {
      ChunkBounds(n, w, i);
      var base := w * i;
      var tempOutput := ExpChunk(w, values, exponents, base);
      var storeMask := if i == count - 1 && n % w != 0 then lastMask else maskAll;
      assert forall l :: 0 <= l < w ==> (storeMask[l] <==> base + l < n);
      out := VStore(out, base, tempOutput, storeMask);
      assert w * (i + 1) == base + w;
      i := i + 1;
      done := done + w;
    }
    chunks := count;
    forall k | 0 <= k < n && values[k] >= -1.0
      ensures out[k] == ClampedExpValue(values[k], exponents[k])
    {
      IteratedClampMatchesSerial(values[k], exponents[k]);
    }
  }
}

=== FILE: intrinsics.dfy ===
/**
  Lane model of the masked vector unit that prog2_vecintrin programs against.

  A register is a fixed-width sequence of lanes and a mask is a sequence of
  booleans of the same width; the width is the length of the operands, so
  every width is covered at once.  The header that defines the intrinsics is
  not part of this model: the definitions below are the contract the
  algorithms rely on.
  - Merge semantics: a masked instruction changes only the active lanes of its
    destination; inactive lanes keep their previous contents.
  - Hadd: each adjacent pair (2i, 2i+1) receives the pair's sum in both lanes.
  - Interleave: the even-indexed lanes go first, then the odd-indexed lanes.
  - Comparisons write the comparison result into active lanes of the result
    mask and leave inactive lanes as they were (every call site passes the
    full mask, so the choice for inactive lanes never shows).
*/
module Intrinsics {

  type Mask = seq<bool>
  type FloatVec = seq<real>
  type IntVec = seq<int>

  // ---------------------------------------------------------------------------
  // Masks
  // ---------------------------------------------------------------------------

  /** `_cs149_init_ones(first)`: the lanes below `first` are active. */
  function InitOnes(w: nat, first: int): (m: Mask)
    ensures |m| == w
    ensures forall i :: 0 <= i < w ==> (m[i] <==> i < first)
  {
    seq(w, i => i < first)
  }

  /** `_cs149_init_ones()`: every lane active. */
  function AllOnes(w: nat): (m: Mask)
    ensures |m| == w
    ensures forall i :: 0 <= i < w ==> m[i]
  {
    InitOnes(w, w)
  }

  /** `_cs149_mask_not`: every lane flips. */
  function MaskNot(m: Mask): (r: Mask)
    ensures |r| == |m|
    ensures forall i :: 0 <= i < |m| ==> r[i] != m[i]
  {
    seq(|m|, i requires 0 <= i < |m| => !m[i])
  }

  /** `_cs149_cntbits`: the number of active lanes. */
  function CntBits(m: Mask): (n: nat)
    ensures n <= |m|
  {
    if |m| == 0 then 0
    else CntBits(m[..|m| - 1]) + (if m[|m| - 1] then 1 else 0)
  }

  // ---------------------------------------------------------------------------
  // Masked instructions (merge semantics)
  // ---------------------------------------------------------------------------

  /** `_cs149_vset_*(dst, v, mask)`: broadcast `v` into the active lanes. */
  function VSet<T>(dst: seq<T>, v: T, mask: Mask): (r: seq<T>)
    requires |mask| == |dst|
    ensures |r| == |dst|
    ensures forall i :: 0 <= i < |r| && mask[i] ==> r[i] == v
    ensures forall i :: 0 <= i < |r| && !mask[i] ==> r[i] == dst[i]
  {
    seq(|dst|, i requires 0 <= i < |dst| => if mask[i] then v else dst[i])
  }

  /** `_cs149_vset_*(v)`: a fresh register with `v` in every lane. */
  function Splat<T>(w: nat, v: T): (r: seq<T>)
    ensures |r| == w
    ensures forall i :: 0 <= i < w ==> r[i] == v
  {
    seq(w, _ => v)
  }

  /** True when every active lane of a width-|mask| access at `base` lies in `mem`. */
  predicate InBounds<T>(mem: seq<T>, base: nat, mask: Mask)
  {
    forall i :: 0 <= i < |mask| && mask[i] ==> base + i < |mem|
  }

  /**
    `_cs149_vload_*(dst, mem + base, mask)`: the active lanes copy the
    contiguous elements starting at `base`; inactive lanes touch no memory.
  */
  function VLoad<T>(dst: seq<T>, mem: seq<T>, base: nat, mask: Mask): (r: seq<T>)
    requires |mask| == |dst|
    requires InBounds(mem, base, mask)
    ensures |r| == |dst|
    ensures forall i :: 0 <= i < |r| && mask[i] ==> r[i] == mem[base + i]
    ensures forall i :: 0 <= i < |r| && !mask[i] ==> r[i] == dst[i]
  {
    seq(|dst|, i requires 0 <= i < |dst| => if mask[i] then mem[base + i] else dst[i])
  }

  /**
    `_cs149_vstore_*(mem + base, src, mask)`: the active lanes are written to
    memory; every other memory cell keeps its contents.
  */
  function VStore<T>(mem: seq<T>, base: nat, src: seq<T>, mask: Mask): (r: seq<T>)
    requires |mask| == |src|
    requires InBounds(mem, base, mask)
    ensures |r| == |mem|
    ensures forall k :: base <= k < base + |src| && mask[k - base] ==> r[k] == src[k - base]
    ensures forall k :: 0 <= k < |mem| && !(base <= k < base + |src| && mask[k - base]) ==> r[k] == mem[k]
  {
    seq(|mem|, k requires 0 <= k < |mem| =>
      if base <= k < base + |src| && mask[k - base] then src[k - base] else mem[k])
  }

  /** `_cs149_vsub_int`. */
  function VSubInt(dst: IntVec, a: IntVec, b: IntVec, mask: Mask): (r: IntVec)
    requires |a| == |dst| && |b| == |dst| && |mask| == |dst|
    ensures |r| == |dst|
    ensures forall i :: 0 <= i < |r| && mask[i] ==> r[i] == a[i] - b[i]
    ensures forall i :: 0 <= i < |r| && !mask[i] ==> r[i] == dst[i]
  {
    seq(|dst|, i requires 0 <= i < |dst| => if mask[i] then a[i] - b[i] else dst[i])
  }

  /** `_cs149_vsub_float`. */
  function VSubFloat(dst: FloatVec, a: FloatVec, b: FloatVec, mask: Mask): (r: FloatVec)
    requires |a| == |dst| && |b| == |dst| && |mask| == |dst|
    ensures |r| == |dst|
    ensures forall i :: 0 <= i < |r| && mask[i] ==> r[i] == a[i] - b[i]
    ensures forall i :: 0 <= i < |r| && !mask[i] ==> r[i] == dst[i]
  {
    seq(|dst|, i requires 0 <= i < |dst| => if mask[i] then a[i] - b[i] else dst[i])
  }

  /** `_cs149_vmult_float`. */
  function VMultFloat(dst: FloatVec, a: FloatVec, b: FloatVec, mask: Mask): (r: FloatVec)
    requires |a| == |dst| && |b| == |dst| && |mask| == |dst|
    ensures |r| == |dst|
    ensures forall i :: 0 <= i < |r| && mask[i] ==> r[i] == a[i] * b[i]
    ensures forall i :: 0 <= i < |r| && !mask[i] ==> r[i] == dst[i]
  {
    seq(|dst|, i requires 0 <= i < |dst| => if mask[i] then a[i] * b[i] else dst[i])
  }

  /** `_cs149_veq_int`: lane-wise equality into the active lanes of `dst`. */
  function VEqInt(dst: Mask, a: IntVec, b: IntVec, mask: Mask): (r: Mask)
    requires |a| == |dst| && |b| == |dst| && |mask| == |dst|
    ensures |r| == |dst|
    ensures forall i :: 0 <= i < |r| && mask[i] ==> (r[i] <==> a[i] == b[i])
    ensures forall i :: 0 <= i < |r| && !mask[i] ==> r[i] == dst[i]
  {
    seq(|dst|, i requires 0 <= i < |dst| => if mask[i] then a[i] == b[i] else dst[i])
  }

  /** `_cs149_vlt_float`. */
  function VLtFloat(dst: Mask, a: FloatVec, b: FloatVec, mask: Mask): (r: Mask)
    requires |a| == |dst| && |b| == |dst| && |mask| == |dst|
    ensures |r| == |dst|
    ensures forall i :: 0 <= i < |r| && mask[i] ==> (r[i] <==> a[i] < b[i])
    ensures forall i :: 0 <= i < |r| && !mask[i] ==> r[i] == dst[i]
  {
    seq(|dst|, i requires 0 <= i < |dst| => if mask[i] then a[i] < b[i] else dst[i])
  }

  /** `_cs149_vgt_float`. */
  function VGtFloat(dst: Mask, a: FloatVec, b: FloatVec, mask: Mask): (r: Mask)
    requires |a| == |dst| && |b| == |dst| && |mask| == |dst|
    ensures |r| == |dst|
    ensures forall i :: 0 <= i < |r| && mask[i] ==> (r[i] <==> a[i] > b[i])
    ensures forall i :: 0 <= i < |r| && !mask[i] ==> r[i] == dst[i]
  {
    seq(|dst|, i requires 0 <= i < |dst| => if mask[i] then a[i] > b[i] else dst[i])
  }

  // ---------------------------------------------------------------------------
  // Unmasked lane permutations used by the reduction
  // ---------------------------------------------------------------------------

  /** `_cs149_hadd_float`: both lanes of each adjacent pair get the pair's sum. */
  function Hadd(src: FloatVec): (r: FloatVec)
    requires |src| % 2 == 0
    ensures |r| == |src|
    ensures forall j :: 0 <= j < |src| / 2 ==> r[2 * j] == r[2 * j + 1] == src[2 * j] + src[2 * j + 1]
  {
    seq(|src|, i requires 0 <= i < |src| => src[i - i % 2] + src[i - i % 2 + 1])
  }

  /** `_cs149_interleave_float`: even-indexed lanes first, then odd-indexed lanes. */
  function Interleave<T>(src: seq<T>): (r: seq<T>)
    requires |src| % 2 == 0
    ensures |r| == |src|
    ensures forall j :: 0 <= j < |src| / 2 ==> r[j] == src[2 * j] && r[|src| / 2 + j] == src[2 * j + 1]
  {
    var h := |src| / 2;
    seq(|src|, i requires 0 <= i < |src| => if i < h then src[2 * i] else src[2 * (i - h) + 1])
  }

  /** Lane `i` of the first half of an interleave is lane `2i` of its source. */
  lemma InterleaveLow<T>(src: seq<T>, i: nat)
    requires |src| % 2 == 0 && i < |src| / 2
    ensures Interleave(src)[i] == src[2 * i]
  {
  }

  /** Lane `i` of the second half of an interleave is the odd source lane `2(i - |src|/2) + 1`. */
  lemma InterleaveHigh<T>(src: seq<T>, i: nat)
    requires |src| % 2 == 0 && |src| / 2 <= i < |src|
    ensures Interleave(src)[i] == src[2 * (i - |src| / 2) + 1]
  {
    var j := i - |src| / 2;
    assert i == |src| / 2 + j;
  }

  // ---------------------------------------------------------------------------
  // Mask algebra
  // ---------------------------------------------------------------------------

  /** Complementing twice gives back the original mask. */
  lemma MaskNotInvolution(m: Mask)
    ensures MaskNot(MaskNot(m)) == m
  {
    assert forall i :: 0 <= i < |m| ==> MaskNot(MaskNot(m))[i] == m[i];
  }

  /** `cntbits(init_ones(k)) == k` for `0 <= k <= w`; outside that range it saturates. */
  lemma {:induction false} CntBitsInitOnes(w: nat, k: int)
    ensures CntBits(InitOnes(w, k)) == if k <= 0 then 0 else if k >= w then w else k
  {
    if w > 0 {
      assert InitOnes(w, k)[..w - 1] == InitOnes(w - 1, k);
      CntBitsInitOnes(w - 1, k);
    }
  }

  /** The lanes a mask activates. */
  ghost function ActiveLanes(m: Mask): set<nat>
  {
    set i: nat | i < |m| && m[i]
  }

  /** `cntbits(m)` counts exactly the active lanes of `m`. */
  lemma {:induction false} CntBitsCountsActive(m: Mask)
    ensures CntBits(m) == |ActiveLanes(m)|
  {
    if |m| > 0 {
      var p := m[..|m| - 1];
      CntBitsCountsActive(p);
      var last := |m| - 1;
      assert ActiveLanes(p) == ActiveLanes(m) - {last};
      if m[last] {
        assert ActiveLanes(m) == ActiveLanes(p) + {last};
      } else {
        assert ActiveLanes(m) == ActiveLanes(p);
      }
    }
  }

  /** The loop exit test of the clamped power: `cntbits(m) == W` exactly when every lane is active. */
  lemma {:induction false} CntBitsFull(m: Mask)
    ensures CntBits(m) == |m| <==> forall i :: 0 <= i < |m| ==> m[i]
  {
    if |m| > 0 {
      var p := m[..|m| - 1];
      CntBitsFull(p);
      assert forall i :: 0 <= i < |p| ==> p[i] == m[i];
    }
  }
}

=== FILE: row_partition.dfy ===
/**
  The row partition of prog1_mandelbrot_threads: task `t` of `totalTasks`
  renders rows [t·height/totalTasks, (t+1)·height/totalTasks), writing pixel
  (j, i) at index j·width + i.

  In the source `taskId` is an `int` and `height`/`width` are `unsigned int`,
  so the products are computed modulo 2^32 before the division.  `RowBoundaryU32`
  is that computation; `RowBoundary` is the exact one the partition
  properties are stated about, and the two agree while
  totalTasks·height < 2^32.
*/
module RowPartition {
  import opened Arith

  const U32: nat := 0x1_0000_0000

  /** The exact boundary: the first row of task `t` (and the end of task `t - 1`). */
  function RowBoundary(t: nat, height: nat, totalTasks: nat): nat
    requires totalTasks > 0
  {
    t * height / totalTasks
  }

  /**
    The boundary as computed in 32-bit unsigned arithmetic: never more than
    (2^32 - 1) / totalTasks, and the exact boundary while the product does not
    wrap.
  */
  function RowBoundaryU32(t: nat, height: nat, totalTasks: nat): (r: nat)
    requires totalTasks > 0
    ensures r <= (U32 - 1) / totalTasks
    ensures t * height < U32 ==> r == RowBoundary(t, height, totalTasks)
  {
    var p := t * height;
    DivMonotone(p % U32, U32 - 1, totalTasks);
    p % U32 / totalTasks
  }

  function StartRow(t: nat, height: nat, totalTasks: nat): nat
    requires totalTasks > 0
  {
    RowBoundary(t, height, totalTasks)
  }

  function EndRow(t: nat, height: nat, totalTasks: nat): nat
    requires totalTasks > 0
  {
    RowBoundary(t + 1, height, totalTasks)
  }

  /** While no product wraps, the 32-bit boundary is the exact one. */
  lemma BoundaryNoWrap(t: nat, height: nat, totalTasks: nat)
    requires totalTasks > 0
    requires t <= totalTasks
    requires totalTasks * height < U32
    ensures RowBoundaryU32(t, height, totalTasks) == RowBoundary(t, height, totalTasks)
  {
    assert t * height <= totalTasks * height by {
      assert totalTasks * height == t * height + (totalTasks - t) * height;
    }
  }

  /**
    Once the product wraps the partition breaks: with 32 threads (3200 tasks)
    and an image 2^21 rows tall, the last task's 32-bit end boundary falls
    far short of the image height.
  */
  lemma BoundaryWrapLosesRows()
    ensures RowBoundaryU32(3200, 2097152, 3200) == 754974
    ensures RowBoundaryU32(3200, 2097152, 3200) != RowBoundary(3200, 2097152, 3200)
  {
    assert 3200 * 2097152 == 6710886400;
    assert 6710886400 % U32 == 2415919104;
    assert 3200 * 2097152 / 3200 == 2097152;
  }

  /** The first task starts at row 0 and the last one ends at row `height`. */
  lemma PartitionEnds(height: nat, totalTasks: nat)
    requires totalTasks > 0
    ensures StartRow(0, height, totalTasks) == 0
    ensures EndRow(totalTasks - 1, height, totalTasks) == height
  {
    ModUnique(totalTasks * height, totalTasks, height, 0);
  }

  /** Consecutive tasks meet, and no task's range runs backwards, so the ranges are contiguous. */
  lemma PartitionContiguous(t: nat, height: nat, totalTasks: nat)
    requires totalTasks > 0
    ensures EndRow(t, height, totalTasks) == StartRow(t + 1, height, totalTasks)
    ensures StartRow(t, height, totalTasks) <= EndRow(t, height, totalTasks)
  {
    assert (t + 1) * height == t * height + height;
    DivMonotone(t * height, (t + 1) * height, totalTasks);
  }

  /** Boundaries never decrease as the task id grows. */
  lemma BoundaryMonotone(s: nat, t: nat, height: nat, totalTasks: nat)
    requires totalTasks > 0 && s <= t
    ensures RowBoundary(s, height, totalTasks) <= RowBoundary(t, height, totalTasks)
  {
    assert t * height == s * height + (t - s) * height;
    DivMonotone(s * height, t * height, totalTasks);
  }

  /** Tasks `s < t` have disjoint row ranges: a row of task `s` lies below every row of task `t`. */
  lemma PartitionDisjoint(s: nat, t: nat, height: nat, totalTasks: nat, j: nat)
    requires totalTasks > 0 && s < t
    requires StartRow(s, height, totalTasks) <= j < EndRow(s, height, totalTasks)
    ensures !(StartRow(t, height, totalTasks) <= j < EndRow(t, height, totalTasks))
  {
    BoundaryMonotone(s + 1, t, height, totalTasks);
  }

  /** Every row of the image belongs to some task id below `totalTasks`. */
  lemma {:induction false} RowCovered(height: nat, totalTasks: nat, j: nat)
    requires totalTasks > 0 && j < height
    ensures exists t :: 0 <= t < totalTasks && StartRow(t, height, totalTasks) <= j < EndRow(t, height, totalTasks)
  {
    PartitionEnds(height, totalTasks);
    RowCoveredFrom(height, totalTasks, j, totalTasks - 1);
  }

  /** Search downward from task `t`, whose end lies above row `j`, for the task that contains it. */
  lemma {:induction false} RowCoveredFrom(height: nat, totalTasks: nat, j: nat, t: nat)
    requires totalTasks > 0 && t < totalTasks
    requires j < EndRow(t, height, totalTasks)
    ensures exists s :: 0 <= s <= t && StartRow(s, height, totalTasks) <= j < EndRow(s, height, totalTasks)
    decreases t
  {
    if StartRow(t, height, totalTasks) > j {
      assert t != 0;
      PartitionContiguous(t - 1, height, totalTasks);
      RowCoveredFrom(height, totalTasks, j, t - 1);
    }
  }

  /** The pixel index `j * width + i` as computed in 32-bit unsigned arithmetic: below 2^32, and the exact index while that is below 2^32. */
  function PixelIndexU32(j: nat, i: nat, width: nat): (r: nat)
    ensures r < U32
    ensures j * width + i < U32 ==> r == j * width + i
  {
    var p := j * width + i;
    p % U32
  }

  /**
    While the image has fewer than 2^31 pixels, every pixel of the image gets
    an index inside the output array, and distinct pixels get distinct
    indices.
  */
  lemma PixelIndexInRange(j: nat, i: nat, width: nat, height: nat)
    requires j < height && i < width
    requires width * height <= U32 / 2
    ensures PixelIndexU32(j, i, width) == j * width + i
    ensures j * width + i < width * height
  {
    MulMonotone(j + 1, height, width);
    assert j * width + i < (j + 1) * width;
    ModUnique(j * width + i, U32, 0, j * width + i);
  }

  lemma PixelIndexInjective(j: nat, i: nat, j': nat, i': nat, width: nat)
    requires i < width && i' < width
    requires j * width + i == j' * width + i'
    ensures j == j' && i == i'
  {
    ModUnique(j * width + i, width, j, i);
    ModUnique(j' * width + i', width, j', i');
  }
}

=== FILE: task_pool.dfy ===
/**
  The dynamic task pool of prog1_mandelbrot_threads, in a sequential view.

  `mandelbrotThread` resets a shared counter to 0, refuses more than 32
  threads, and starts `numThreads` workers over `numThreads * 100` tasks.
  Each worker repeatedly takes the counter's value and increments it, and
  stops as soon as the value it took is not below the task count.  Threads
  are modelled by an arbitrary schedule: a sequence of worker ids, each entry
  one atomic fetch-and-increment by that worker.
*/
module TaskPool {
  import opened RowPartition

  const MaxThreads: nat := 32
  const TasksPerThread: nat := 100

  /** Task `task` was handed to worker `worker`. */
  datatype Claim = Claim(worker: nat, task: nat)

  /** The shared counter, the task count, which workers have left their loop, and the tasks handed out in order. */
  datatype Pool = Pool(next: nat, totalTasks: nat, stopped: seq<bool>, claims: seq<Claim>)

  datatype LaunchResult = Launched(pool: Pool) | TooManyThreads(limit: nat)

  /**
    What the fetches so far guarantee: task ids went out as 0, 1, 2, ... to
    real workers, none at or past the task count, and a worker has stopped
    only once the counter has passed the task count.
  */
  ghost predicate PoolInv(p: Pool)
  {
    && |p.claims| == (if p.next < p.totalTasks then p.next else p.totalTasks)
    && (forall k :: 0 <= k < |p.claims| ==> p.claims[k].task == k && p.claims[k].worker < |p.stopped|)
    && (forall w :: 0 <= w < |p.stopped| && p.stopped[w] ==> p.next > p.totalTasks)
  }

  /**
    `mandelbrotThread` up to the spawn: more than 32 threads is refused before
    any work starts; otherwise the counter is 0, there are 100 tasks per
    thread, and no worker has started.
  */
  function Launch(numThreads: int): (r: LaunchResult)
    requires numThreads >= 1
    ensures r.TooManyThreads? <==> numThreads > MaxThreads
    ensures r.TooManyThreads? ==> r.limit == MaxThreads
    ensures r.Launched? ==> PoolInv(r.pool) && r.pool.claims == []
    ensures r.Launched? ==> |r.pool.stopped| == numThreads && r.pool.totalTasks == numThreads * TasksPerThread
    ensures r.Launched? ==> forall w :: 0 <= w < numThreads ==> !r.pool.stopped[w]
  {
    if numThreads > MaxThreads then TooManyThreads(MaxThreads)
    else Launched(Pool(0, numThreads * TasksPerThread, seq(numThreads, _ => false), []))
  }

  /**
    One pass of a worker's loop: take the counter and increment it; a value
    at or past the task count ends the worker's loop, any other value is the
    task it renders.  A worker that has stopped takes no more turns.
  */
  function Fetch(p: Pool, worker: nat): (q: Pool)
    requires worker < |p.stopped|
    ensures |q.stopped| == |p.stopped| && q.totalTasks == p.totalTasks
    ensures p.stopped[worker] ==> q == p
    ensures !p.stopped[worker] ==> q.next == p.next + 1
    ensures !p.stopped[worker] ==> (q.stopped[worker] <==> p.next >= p.totalTasks)
    ensures forall v :: 0 <= v < |p.stopped| && v != worker ==> q.stopped[v] == p.stopped[v]
    ensures !p.stopped[worker] && p.next < p.totalTasks ==> q.claims == p.claims + [Claim(worker, p.next)]
    ensures !p.stopped[worker] && p.next >= p.totalTasks ==> q.claims == p.claims
    ensures |p.claims| <= |q.claims| && q.claims[..|p.claims|] == p.claims
    ensures PoolInv(p) ==> PoolInv(q)
  {
    if p.stopped[worker] then p
    else if p.next >= p.totalTasks then
      p.(next := p.next + 1, stopped := p.stopped[worker := true])
    else
      p.(next := p.next + 1, claims := p.claims + [Claim(worker, p.next)])
  }

  ghost predicate ValidSchedule(p: Pool, schedule: seq<nat>)
  {
    forall k :: 0 <= k < |schedule| ==> schedule[k] < |p.stopped|
  }

  /** The fetches of `schedule`, one after another. */
  function Run(p: Pool, schedule: seq<nat>): (q: Pool)
    requires ValidSchedule(p, schedule)
    ensures |q.stopped| == |p.stopped| && q.totalTasks == p.totalTasks
    ensures |p.claims| <= |q.claims| && q.claims[..|p.claims|] == p.claims
    ensures PoolInv(p) ==> PoolInv(q)
    decreases |schedule|
  {
    if |schedule| == 0 then p
    else
      var p' := Fetch(p, schedule[0]);
      assert ValidSchedule(p', schedule[1..]);
      Run(p', schedule[1..])
  }

  /** Task `t` was handed to some worker. */
  ghost predicate Claimed(p: Pool, t: nat)
  {
    exists k :: 0 <= k < |p.claims| && p.claims[k].task == t
  }

  /**
    Once every worker has left its loop, every task id below the task count
    was handed out exactly once, and none at or past it.
  */
  lemma AllStoppedEveryTaskOnce(p: Pool)
    requires PoolInv(p)
    requires |p.stopped| > 0
    requires forall w :: 0 <= w < |p.stopped| ==> p.stopped[w]
    ensures |p.claims| == p.totalTasks
    ensures forall t :: 0 <= t < p.totalTasks ==> Claimed(p, t)
    ensures forall k, k' :: 0 <= k < |p.claims| && 0 <= k' < |p.claims| && p.claims[k].task == p.claims[k'].task ==> k == k'
    ensures forall k :: 0 <= k < |p.claims| ==> p.claims[k].task < p.totalTasks
  {
    assert p.stopped[0];
    forall t | 0 <= t < p.totalTasks
      ensures Claimed(p, t)
    {
      assert p.claims[t].task == t;
    }
  }

  /** Claim `k` of `q` is a task whose row range contains row `j`. */
  ghost predicate RendersRow(q: Pool, k: nat, height: nat, j: nat)
    requires k < |q.claims| && q.totalTasks > 0
  {
    StartRow(q.claims[k].task, height, q.totalTasks) <= j < EndRow(q.claims[k].task, height, q.totalTasks)
  }

  /**
    Combined with the row partition: after a launch and any schedule that
    leaves every worker stopped, each image row was rendered by exactly one
    handed-out task.
  */
  lemma EveryRowRenderedOnce(numThreads: int, schedule: seq<nat>, q: Pool, height: nat, j: nat)
    requires 1 <= numThreads <= MaxThreads
    requires ValidSchedule(Launch(numThreads).pool, schedule)
    requires q == Run(Launch(numThreads).pool, schedule)
    requires forall w :: 0 <= w < |q.stopped| ==> q.stopped[w]
    requires j < height
    ensures exists k :: 0 <= k < |q.claims| && RendersRow(q, k, height, j)
    ensures forall k, k' :: 0 <= k < |q.claims| && 0 <= k' < |q.claims| && RendersRow(q, k, height, j) && RendersRow(q, k', height, j) ==> k == k'
  {
    AllStoppedEveryTaskOnce(q);
    RowCovered(height, q.totalTasks, j);
    var t :| 0 <= t < q.totalTasks && StartRow(t, height, q.totalTasks) <= j < EndRow(t, height, q.totalTasks);
    assert q.claims[t].task == t;
    assert RendersRow(q, t, height, j);
    forall k, k' | 0 <= k < |q.claims| && 0 <= k' < |q.claims| && RendersRow(q, k, height, j) && RendersRow(q, k', height, j)
      ensures k == k'
    {
      if k < k' {
        PartitionDisjoint(k, k', height, q.totalTasks, j);
      } else if k' < k {
        PartitionDisjoint(k', k, height, q.totalTasks, j);
      }
    }
  }

  /** Running two schedules back to back is running their concatenation. */
  lemma {:induction false} RunConcat(p: Pool, a: seq<nat>, b: seq<nat>)
    requires ValidSchedule(p, a + b)
    ensures ValidSchedule(p, a) && ValidSchedule(Run(p, a), b)
    ensures Run(p, a + b) == Run(Run(p, a), b)
    decreases |a|
  {
    assert forall k :: 0 <= k < |a| ==> a[k] == (a + b)[k];
    assert forall k :: 0 <= k < |b| ==> b[k] == (a + b)[|a| + k];
    if |a| > 0 {
      assert (a + b)[1..] == a[1..] + b;
      RunConcat(Fetch(p, a[0]), a[1..], b);
    } else {
      assert a + b == b;
    }
  }

  /** While tasks remain, `m` turns of one running worker claim the next `m` tasks and stop nobody. */
  lemma {:induction false} SoloTurns(p: Pool, worker: nat, m: nat)
    requires worker < |p.stopped| && !p.stopped[worker]
    requires p.next + m <= p.totalTasks
    ensures ValidSchedule(p, seq(m, _ => worker))
    ensures Run(p, seq(m, _ => worker)).next == p.next + m
    ensures Run(p, seq(m, _ => worker)).stopped == p.stopped
    decreases m
  {
    if m > 0 {
      var p' := Fetch(p, worker);
      assert seq(m, _ => worker)[1..] == seq(m - 1, _ => worker);
      SoloTurns(p', worker, m - 1);
    }
  }

  /** One turn each for workers `lo`, `lo + 1`, ..., `n - 1`. */
  function Sweep(lo: nat, n: nat): (s: seq<nat>)
    requires lo <= n
    ensures |s| == n - lo
    ensures forall k :: 0 <= k < |s| ==> s[k] == lo + k
  {
    seq(n - lo, k => lo + k)
  }

  /** Once the tasks are used up, one turn each for workers `lo` up to `|stopped|` stops them all, keeping those already stopped. */
  lemma {:induction false} LastTurns(p: Pool, lo: nat)
    requires lo <= |p.stopped|
    requires p.next >= p.totalTasks
    ensures ValidSchedule(p, Sweep(lo, |p.stopped|))
    ensures var q := Run(p, Sweep(lo, |p.stopped|));
      forall w :: 0 <= w < |p.stopped| && (w >= lo || p.stopped[w]) ==> q.stopped[w]
    decreases |p.stopped| - lo
  {
    if lo < |p.stopped| {
      var p' := Fetch(p, lo);
      assert p'.stopped[lo];
      assert Sweep(lo, |p.stopped|)[1..] == Sweep(lo + 1, |p'.stopped|);
      LastTurns(p', lo + 1);
      var q := Run(p', Sweep(lo + 1, |p'.stopped|));
      assert Run(p, Sweep(lo, |p.stopped|)) == q;
      forall w | 0 <= w < |p.stopped| && (w >= lo || p.stopped[w])
        ensures q.stopped[w]
      {
        assert w >= lo + 1 || p'.stopped[w];
      }
    }
  }

  /**
    The workers can always finish: after a launch, the schedule in which the
    first worker takes every task and then each worker takes one more turn
    leaves all of them stopped.
  */
  lemma DrainSchedule(numThreads: int)
    requires 1 <= numThreads <= MaxThreads
    ensures var p := Launch(numThreads).pool;
      var schedule := seq(p.totalTasks, _ => 0) + Sweep(0, numThreads);
      ValidSchedule(p, schedule)
      && forall w :: 0 <= w < numThreads ==> Run(p, schedule).stopped[w]
  {
    var p := Launch(numThreads).pool;
    var a := seq(p.totalTasks, _ => 0);
    var b := Sweep(0, numThreads);
    SoloTurns(p, 0, p.totalTasks);
    var p1 := Run(p, a);
    LastTurns(p1, 0);
    assert ValidSchedule(p, a + b);
    RunConcat(p, a, b);
  }
}
